=== FILE: README.md ===
# AI Career Guidance System: the prediction service in Dafny

The backend of the AI Career Guidance System is a small Flask service, in
`backend/app.py`. At startup it loads three artifacts:

- a trained tree classifier;
- a label encoder holding the career names;
- the canonical feature order.

It then answers three requests:

- `/health` reports whether the model loaded and how many features it expects.
- `/careers` lists the career labels.
- `/predict` does the real work:
  - It reads a questionnaire of eight aptitude scores (default 10) and eight POOR/AVG/BEST performance ratings (default AVG, coded 0/1/2).
  - It derives nine values from them: the total, the spread, four indices (three averages and the bodily score on its own), the performance score, a high-performer flag against a 1.12 threshold, and a pass-through cluster.
  - It builds the 25-number feature vector.
  - It checks the vector's length against the feature order.
  - It asks the classifier for per-class probabilities.
  - It answers with the five most probable careers, ranked 1 to 5, each with its confidence in percent rounded to two decimals.

This project models that logic as pure functions over immutable data, and proves what each stage promises.

Modules:

- `Results` (`results.dfy`): `Option` and `Result`.
- `NumericText` (`numeric_text.dfy`): the decimal text that Python's `int()` and `float()` accept. It also covers the rendering of integers, with its round trip.
- `Values` (`values.dfy`):
  - the decoded JSON value;
  - `dict.get` with a default;
  - Python's `float()` and `int()` coercions;
  - hashability, which decides whether a rating can be looked up.
- `Stats` (`stats.dfy`): sums, means and the population variance that `np.std` takes the square root of.
- `Features` (`features.dfy`): reading the questionnaire with its defaults and coercions, and building the feature vector.
- `Rounding` (`rounding.dfy`): `round(x, 2)` as round-half-to-even over exact reals, and the confidence shown for a probability.
- `Ranking` (`ranking.dfy`):
  - the top-k selection, specified by a predicate (`IsTopK`) and implemented by repeated selection of the best remaining index;
  - the labelled, ranked predictions.
- `Service` (`service.dfy`):
  - the startup load as a function of what each artifact read produced;
  - the health and careers answers;
  - the outcome of a prediction request and its HTTP status.

Two things are parameters of the model rather than parts of it:

- The classifier is a function from a feature vector to either probabilities or the message of the exception it raised.
- The square root used by `np.std` is a function `sqrt: real -> real`.

Exceptions that `predict()` catches become `Failed` outcomes. Each carries a structured reason (`Features.Fault`, `Service.Reason`) rather than Python's message text.

Equal probabilities:

- The code ranks with `np.argsort(probs)[-5:][::-1]`. The default sort is not stable, and the slice is then reversed, so the code promises no order among equal probabilities.
- `Ranking.IsTopK` admits every correct order. `Ranking.RankedConfidencesAreDetermined` proves that the ranks and confidences shown do not depend on which correct order is chosen; only the labels of tied classes may differ.
- The model's own selection, `Ranking.TopIndices`, takes the lowest index first among equal probabilities. Whether `Ranking.Rank`, `Service.Classify`, `Service.Predict` and `Service.PredictedIff` answer 200 or 500 is decided on that selection.
- With ties the verdict can depend on the selection. Six probabilities of 0.25 over five labels rank as indices 0..4 here and succeed, while an order that puts index 5 in the top five fails. `Ranking.RankVerdictIsTieFree` proves that every correct selection reaches the model's verdict when no two probabilities are equal, or when the encoder labels every class.

## Model

| member | source | states |
|---|---|---|
| NumericText.ParseInt | backend/app.py:124 | `int()` on a string succeeds exactly when the text, once surrounding whitespace is stripped, is an optional sign followed by one or more digits |
| NumericText.ParseFloat | backend/app.py:70-77 | `float()` on a string succeeds exactly when the stripped text is an optionally signed decimal with at most one point and at least one digit |
| NumericText.ParseIntRoundTrip | backend/app.py:124 | an integer written as text reads back through `int()` as the same integer |
| NumericText.ParseFloatOfIntText | backend/app.py:70-77 | an integer written as text reads back through `float()` as the same number |
| NumericText.UnsignedDecimalAt | backend/app.py:70-77 | digits with one point at position p read as the integer those digits spell, divided by ten to the number of digits after the point |
| NumericText.ParseFloatOfPointText | backend/app.py:70-77 | `float()` of digits with a point k places from the right gives the digits' integer over 10^k |
| NumericText.ParseFloatOfNegativePointText | backend/app.py:70-77 | `float()` of a minus sign before such text gives the negated value |
| Values.Float | backend/app.py:70-77 | `float()` keeps a number; maps true/false to 1.0/0.0; accepts a string exactly when it is decimal text; raises on null, a list or an object |
| Values.Int | backend/app.py:124 | `int()` truncates a number; maps true/false to 1/0; accepts a string exactly when it is integer text; raises on null, a list or an object |
| Values.Trunc | backend/app.py:124 | truncation toward zero: the result lies within one of the input, on the input's side of zero |
| Values.TruncOfIntegral | backend/app.py:124 | a cluster sent as a whole number passes through `int()` unchanged |
| Features.RatingCode | backend/app.py:85-97 | POOR is 0 and BEST is 2 (each iff); every other hashable value, AVG included, is 1; every code lies in 0..2; a list or object raises |
| Features.ReadFields | backend/app.py:69-78 | fields are read in the listed order; success iff every field's value is accepted; the i-th result is what the coercion makes of the i-th field or its default; a failure names the first rejected field |
| Values.GetOr | backend/app.py:67-124 | `d.get(key, default)` gives the stored value for a present key and the default for a missing one |
| Features.ReadSection | backend/app.py:67-97 | a section is read iff `data.get(key, {})` is an object and every listed field, or its default, is accepted; the i-th value is what the coercion makes of the i-th field or its default; a failure is either the section not being an object or names a listed field whose value is rejected |
| Features.Section | backend/app.py:67 | `data.get(key, {})` is usable exactly when it is an object; a missing key gives the empty object |
| Features.ReadAptitudes | backend/app.py:67-78 | the aptitudes are read iff the section is readable; eight values, each what `float()` makes of the sent value or of the default 10; a failure is either the section not being an object or `NotAFloat` naming an aptitude field whose value `float()` rejects |
| Features.ReadRatings | backend/app.py:85-97 | the ratings are read iff every sent rating is hashable; eight codes, each the lookup of the sent rating or of AVG, all in 0..2; a failure is either the section not being an object or `UnhashableRating` naming a field whose value cannot be hashed |
| Features.ReadCluster | backend/app.py:124 | an absent cluster reads as 0; a present one must be accepted by `int()` and reads as what `int()` gives; the only fault is `NotAnInt("cluster")` |
| Features.ReadQuestionnaire | backend/app.py:62-124 | a successful read always yields eight aptitudes and eight codes in 0..2; a non-object body and only it fails with `BodyNotAnObject`; every other fault comes from the first stage that fails, in the order aptitudes, ratings, cluster |
| Features.ReadSucceedsIffReadable | backend/app.py:62-124 | reading the body succeeds exactly for the bodies described declaratively by `Readable`: an object whose present aptitudes `float()` accepts, whose present ratings are hashable, and whose cluster, if present, `int()` accepts |
| Features.AptitudeValue | backend/app.py:67-78 | a missing aptitude reads as 10, and a present one keeps its own position with the value `float()` gives it |
| Features.RatingValue | backend/app.py:85-97 | a missing rating reads as code 1, and a present one keeps its own position with its looked-up code |
| Features.ClusterValue | backend/app.py:124 | the cluster is 0 when absent, is what `int()` gives for the sent value when present, and so equals the sent whole number |
| Features.NoAptitudesReadDefaults | backend/app.py:67-78 | when no aptitude field is sent, the aptitudes read as eight 10s |
| Features.NoRatingsReadDefaults | backend/app.py:85-97 | when no rating is sent, the codes read as eight 1s |
| Features.SectionlessBodyReadsDefaults | backend/app.py:62-124 | a body without a cluster whose sections are absent or empty reads as eight 10s, eight 1s and cluster 0 |
| Features.EmptyBodyReadsDefaults | backend/app.py:62-124 | `{}` and `{"aptitudes": {}, "performance": {}}` both read as eight 10s, eight 1s and cluster 0 |
| Features.AllBestReadsTwos | backend/app.py:85-97 | all eight ratings sent as BEST read as eight 2s |
| Features.HighPerformerIffCodeSum | backend/app.py:118-121 | the performance score is the code sum over 8, and it reaches the 1.12 threshold exactly when the code sum is at least 9 |
| Features.FeatureVector | backend/app.py:104-143 | the vector has 25 entries: the aptitudes at 0..7; the codes at 8..15; then total, spread, intelligence (mean of 3 and 4), creativity (mean of 0, 1, 2, 5), physical (index 2), social (mean of 5 and 6), score (code sum over 8), flag (1 iff the code sum is at least 9) and cluster |
| Features.BuildFeatures | backend/app.py:62-143 | a vector is built exactly when the body can be read; it is the feature vector of what was read; otherwise the read's fault is reported |
| Features.AverageRatingsAreNotHigh | backend/app.py:118-121 | all codes 1, as with no ratings sent, give score 1.0 and flag 0 |
| Features.BestRatingsAreHigh | backend/app.py:118-121 | all codes 2 give score 2.0 and flag 1 |
| Features.EqualAptitudesHaveNoDiversity | backend/app.py:105 | equal aptitudes give the square root of zero variance as the spread, which is 0 for any square root with sqrt(0) = 0 |
| Features.DerivedValuesInRange | backend/app.py:104-118 | with every aptitude in [lo, hi], the total lies in [8 lo, 8 hi], each index average lies in [lo, hi], and the score lies in [0, 2] |
| Features.DefaultsVector | backend/app.py:129-143 | the all-defaults questionnaire builds eight 10s, eight 1s, total 80, every index 10, score 1, flag 0 and cluster 0 |
| Stats.SumAsReals | backend/app.py:118 | summing the codes as numbers agrees with summing them as integers |
| Stats.SumOfConstant | backend/app.py:104 | n copies of c sum to n times c |
| Stats.SumWithin | backend/app.py:104 | a sum of n values in [lo, hi] lies in [n lo, n hi] |
| Stats.MeanWithin | backend/app.py:107-118 | a mean lies within any bounds of its inputs |
| Stats.SumOfNonNegative | backend/app.py:105 | a sum of non-negative values is non-negative, and is zero only when every value is zero |
| Stats.VarianceNonNegative | backend/app.py:105 | the population variance that `std` takes the root of is never negative |
| Stats.ConstantHasZeroVariance | backend/app.py:105 | all-equal values have population variance 0 |
| Rounding.RoundHalfEven | backend/app.py:165 | the result is an integer within 0.5 of the input; on an exact tie it is the even neighbour |
| Rounding.RoundHalfEvenMonotone | backend/app.py:165 | rounding never reverses the order of two values |
| Rounding.Round2 | backend/app.py:165 | `round(x, 2)` gives a whole number of hundredths, at most 0.005 from its input |
| Rounding.Confidence | backend/app.py:165 | the confidence is a whole number of hundredths, within 0.005 of the probability times 100 |
| Rounding.ConfidenceMonotone | backend/app.py:165 | a higher probability never shows a lower confidence |
| Rounding.ConfidenceWithinPercent | backend/app.py:165 | a probability in [0, 1] shows as a confidence in [0, 100] |
| Ranking.BestIn | backend/app.py:158 | the best remaining index is absent exactly when every index is excluded; otherwise it is not excluded and no remaining index has a higher probability |
| Ranking.TopK | backend/app.py:158 | the selection returns k distinct in-range indices in non-increasing probability order, each at least as probable as every index left out |
| Ranking.TopIndices | backend/app.py:158 | the top-index list satisfies the top-k specification with k = min(5, number of classes) |
| Ranking.TopKProbabilitiesAgree | backend/app.py:158 | any two selections meeting the top-k specification show the same probability at every rank |
| Ranking.TopKUniqueWithoutTies | backend/app.py:158 | when no two probabilities are equal there is only one correct top-k selection |
| Ranking.Describe | backend/app.py:160-166 | the predictions are built iff every selected index has a label; each has rank i + 1, the encoder's label at its index, and the rounded confidence; a failure names an unlabelled index |
| Ranking.Rank | backend/app.py:157-166 | ranking succeeds iff the encoder labels every top index, and always when the encoder has at least as many labels as there are probabilities; the result is a top-k ranking; a failure reports an index beyond the labels |
| Ranking.RankedIsOrdered | backend/app.py:158-166 | a ranked answer has min(5, number of classes) entries, ranked 1, 2, ..., with non-increasing confidences |
| Ranking.RankedConfidenceIsPercent | backend/app.py:165 | with probabilities in [0, 1] every confidence shown lies in [0, 100] |
| Ranking.RankedConfidencesAreDetermined | backend/app.py:158-165 | two correct rankings of the same probabilities agree in length, in ranks and in every confidence, whatever order ties were given |
| Ranking.RankVerdictIsTieFree | backend/app.py:158-164 | without equal probabilities, or with a label for every class, ranking succeeds exactly when every index of any correct top-k selection has a label |
| Service.Load | backend/app.py:14-27 | the service is ready iff all three artifacts loaded; otherwise the label encoder stays bound exactly when the model and the encoder both loaded |
| Service.Health | backend/app.py:45-51 | the model is reported loaded iff the service is ready; the expected feature count is the feature order's length, or 0 when unavailable |
| Service.Careers | backend/app.py:179-184 | the careers are listed iff a label encoder is bound; the total is the number of careers listed, which are the encoder's labels |
| Service.Status | backend/app.py:56-174 | 200 iff a prediction was made, 400 iff the feature count mismatched, 500 for an unloaded model or any caught failure |
| Service.Classify | backend/app.py:157-166 | predictions are made iff the classifier answers and every top index has a label; they form a top-k ranking of its probabilities; a classifier exception or a missing label is a failure carrying its cause |
| Service.Predict | backend/app.py:56-174 | an unloaded model is reported iff the service is unavailable; a mismatch carries the feature order's length as expected and 25 as received, and these differ; success needs a 25-name feature order; a body fault is the fault the read reports |
| Service.HealthAfterLoad | backend/app.py:14-51 | after startup, health reports a loaded model iff all three artifacts loaded, expecting the loaded order's length in that case and 0 otherwise |
| Service.CareersAfterLoad | backend/app.py:14-27 | after startup the careers are listed iff the model and the encoder both loaded, whatever became of the feature order |
| Service.MismatchIff | backend/app.py:145-150 | a 400 mismatch happens iff the model is loaded, the body is readable and the feature order does not list 25 names; an unreadable body is a 500 even when the lengths differ |
| Service.PredictedIff | backend/app.py:56-171 | a prediction succeeds iff every stage passes: loaded model, readable body, 25-name feature order, a classifier answer, and labels for every top index; the predictions then rank the classifier's probabilities |
| Service.PredictedIsOrdered | backend/app.py:157-171 | a successful answer has at most five entries and no more than the classifier has classes, ranked 1, 2, ..., with non-increasing confidences |
| Service.EmptyBodyVector | backend/app.py:62-143 | the body `{}` is readable, and the classifier is given the all-defaults vector |

## Left out

- HTTP plumbing is not modelled: Flask routing, CORS, `jsonify`, the home route's fixed message, and `app.run`. The outcomes are datatypes, and `Service.Status` gives their status codes.
- `request.get_json()` is not modelled; its result is a parameter. `None` stands for a request without a JSON document, and the decoded value is `Values.Json`.
- Service.Load: the startup prints are assumed not to raise. An output stream that cannot encode them would make the except branch's own print raise as well, and the module would fail to import.
- Reading the artifacts is not modelled: `joblib.load` and reading `feature_order.json`. `Service.Load` takes what each read produced, with `None` for a read that raised. It also assumes the feature order is a list of names.
- The classifier's internals are not modelled. `predict_proba` is an opaque function returning probabilities or an exception message. No property of the probabilities, such as summing to 1, is assumed.
- Exception message text is not modelled. Caught exceptions carry a structured reason instead of `str(e)`.
- Arithmetic is on exact reals, not IEEE doubles. Sums, means and the 1.12 comparison are exact, so binary rounding near the threshold is not modelled.
- Features.FeatureVector: the spread is `sqrt` applied to the population variance, with `sqrt` a parameter. Only "equal aptitudes give spread 0" is proved, not its converse. The converse needs a square of a nonzero real to be positive, which the solver does not establish here.
- Rounding.Round2: rounds exact reals half to even. Python rounds the binary double nearest `p * 100`, so its ties can land on the other side.
- Values.Float: strings in exponent form (`"1e3"`), `"inf"` and `"nan"`, and digits separated by underscores are rejected, although Python's `float()` accepts them.
- NumericText.ParseFloat: accepts plain decimal notation only. Exponents, infinities, NaN and underscores are not modelled, and non-ASCII digits and whitespace are not recognised.
- NumericText.ParseInt: digit strings with underscores (`"1_000"`), non-ASCII digits, and non-ASCII whitespace around the digits (such as U+00A0, U+2003 or U+3000) are rejected, although Python's `int()` accepts them. The ASCII whitespace skipped is exactly Python's: space, tab, line feed, vertical tab, form feed and carriage return. A string of more than 4300 digits is accepted, although current Python (3.11 and later, and the security releases of 3.7 to 3.10) rejects it with `ValueError`; the limit is a runtime setting, not part of the language.
- Values.Int: inherits the gaps of `NumericText.ParseInt`: underscores, non-ASCII digits and non-ASCII whitespace around the digits (so a cluster `"\u00a07"` fails here where Python reads 7) are rejected, and a cluster string of more than 4300 digits is read, where Python's `int()` raises and `predict()` answers 500.
- Values.Json: JSON integers and floats are both exact reals.
- Values.Float: a JSON integer beyond the range of a double is kept as it is, although Python's `float()` raises `OverflowError` on it and `predict()` answers 500. Other integers are not rounded to the nearest double either.
- Ranking.Rank: among equal probabilities the model fixes the lowest index first, where `np.argsort` without `kind="stable"` fixes no order. Its success or failure, and that of `Service.Classify`, `Service.Predict` and `Service.PredictedIff`, follows that choice. Only when no two probabilities are equal, or every class has a label, is the verdict shown to hold for every order.
- The UI scripts `assets/js/test.js` and `assets/js/theme.js` are not modelled. They handle form reading, `fetch`, HTML rendering and theme toggling, and hold no service logic.

=== FILE: features.dfy ===
/** The feature builder of `predict()`: reading the questionnaire out of
    the request body and turning it into the 25-number vector the
    classifier was trained on. */
module Features {
  import opened Results
  import opened Values
  import Stats

  /** The aptitude fields, in vector order (indices 0..7). */
  const AptitudeFields: seq<string> := [
    "linguistic", "musical", "bodily", "logical_mathematical",
    "spatial_visualization", "interpersonal", "intrapersonal", "naturalist"]

  /** The performance fields, in vector order (indices 8..15). */
  const PerformanceFields: seq<string> := [
    "project_performance", "practical_skills", "research_interest", "communication_skills",
    "leadership_qualities", "teamwork", "time_management", "self_learning"]

  /** What `apt.get(name, 10)` yields for a missing aptitude. */
  const DefaultAptitude: Json := JNum(10.0)
  /** What `perf.get(name, "AVG")` yields for a missing rating. */
  const DefaultRating: Json := JStr("AVG")
  /** What `data.get("cluster", 0)` yields when no cluster is sent. */
  const DefaultCluster: Json := JNum(0.0)

  /** The high-performer cut-off on the mean rating code, fixed at training time. */
  const HighPerformerThreshold: real := 1.12

  /** Length of the vector built: 8 aptitudes, 8 ratings, 9 derived values. */
  const FeatureCount: nat := 25

  /** Why reading the request body failed (each is a Python exception that
      the handler turns into a 500 response carrying its message). */
  datatype Fault =
    | BodyNotAnObject                    // `data.get` on a non-dictionary body
    | SectionNotAnObject(key: string)    // `apt.get` / `perf.get` on a non-dictionary
    | NotAFloat(field: string)           // `float(...)` rejected an aptitude value
    | UnhashableRating(field: string)    // a list or dictionary used as a rating
    | NotAnInt(field: string)            // `int(...)` rejected the cluster value

  /** `perf_map.get(rating, 1)` with `perf_map = {"POOR": 0, "AVG": 1, "BEST": 2}`;
      `None` where the rating cannot be hashed. */
  function RatingCode(rating: Json): (r: Option<int>)
    ensures r.Some? <==> Hashable(rating)
    ensures r.Some? ==> 0 <= r.value <= 2
    ensures r == Some(0) <==> rating == JStr("POOR")
    ensures r == Some(2) <==> rating == JStr("BEST")
    ensures Hashable(rating) && rating != JStr("POOR") && rating != JStr("BEST") ==> r == Some(1)
  {
    if !Hashable(rating) then None
    else if rating == JStr("POOR") then Some(0)
    else if rating == JStr("AVG") then Some(1)
    else if rating == JStr("BEST") then Some(2)
    else Some(1)
  }

  /** Reads `names` in order from `section` with `read(section.get(name, default))`,
      stopping at the position of the first value `read` rejects. */
  function ReadFields<T>(section: map<string, Json>, names: seq<string>, default: Json, read: Json -> Option<T>)
    : (r: Result<seq<T>, nat>)
    ensures r.Success? <==> forall i :: 0 <= i < |names| ==> read(GetOr(section, names[i], default)).Some?
    ensures r.Success? ==> |r.value| == |names|
    ensures r.Success? ==> forall i :: 0 <= i < |names| ==> read(GetOr(section, names[i], default)) == Some(r.value[i])
    ensures r.Failure? ==> r.error < |names| && read(GetOr(section, names[r.error], default)).None?
    ensures r.Failure? ==> forall j :: 0 <= j < r.error ==> read(GetOr(section, names[j], default)).Some?
  {
    if |names| == 0 then Success([])
    else match read(GetOr(section, names[0], default))
      case None => Failure(0)
      case Some(x) =>
        match ReadFields(section, names[1..], default, read)
        case Failure(k) => Failure(k + 1)
        case Success(xs) => Success([x] + xs)
  }

  /** `data.get(key, {})`, which must be a dictionary for `.get` to work on it. */
  function Section(data: map<string, Json>, key: string): (r: Result<map<string, Json>, Fault>)
    ensures r.Success? <==> GetOr(data, key, JObj(map[])).JObj?
    ensures r.Success? ==> r.value == GetOr(data, key, JObj(map[])).fields
    ensures key !in data ==> r == Success(map[])
  {
    match GetOr(data, key, JObj(map[]))
    case JObj(fields) => Success(fields)
    case _ => Failure(SectionNotAnObject(key))
  }

  /** The questionnaire read from a body that sends nothing. */
  const Defaults: Questionnaire := Questionnaire(seq(8, _ => 10.0), seq(8, _ => 1), 0)

  /** The questionnaire after defaults and coercions. */
  datatype Questionnaire = Questionnaire(aptitudes: seq<real>, codes: seq<int>, cluster: int) {
    predicate Valid() {
      && |aptitudes| == |AptitudeFields|
      && |codes| == |PerformanceFields|
      && forall i :: 0 <= i < |codes| ==> 0 <= codes[i] <= 2
    }
  }

  /** The fields found under `key` in the body, empty when there are none. */
  ghost function SectionFields(body: map<string, Json>, key: string): map<string, Json> {
    if key in body && body[key].JObj? then body[key].fields else map[]
  }

  /** The value `section.get(name, default)` reads for field `name` of the `key` section. */
  ghost function FieldValue(body: map<string, Json>, key: string, name: string, default: Json): Json {
    GetOr(SectionFields(body, key), name, default)
  }

  /** The `key` entry, when present, is a dictionary, and every field of
      `names` present in it satisfies `ok`. Absent fields fall back to
      defaults that are always acceptable. */
  ghost predicate SectionReadable<T>(body: map<string, Json>, key: string, names: seq<string>, read: Json -> Option<T>) {
    && (key in body ==> body[key].JObj?)
    && forall i :: 0 <= i < |names| && names[i] in SectionFields(body, key) ==> read(SectionFields(body, key)[names[i]]).Some?
  }

  /** The `performance` entry, when present, is a dictionary whose present
      rating labels can all be hashed. */
  ghost predicate RatingsHashable(body: map<string, Json>) {
    && ("performance" in body ==> body["performance"].JObj?)
    && forall i :: 0 <= i < |PerformanceFields| && PerformanceFields[i] in SectionFields(body, "performance") ==>
         Hashable(SectionFields(body, "performance")[PerformanceFields[i]])
  }

  /** Declarative statement of which request bodies `predict()` can read:
      a dictionary whose present aptitude values `float()` accepts, whose
      present rating labels are hashable, and whose cluster, if present,
      `int()` accepts. */
  ghost predicate Readable(data: Json) {
    && data.JObj?
    && SectionReadable(data.fields, "aptitudes", AptitudeFields, Float)
    && RatingsHashable(data.fields)
    && ("cluster" in data.fields ==> Int(data.fields["cluster"]).Some?)
  }

  /** Reads one section of the body field by field. A failure carries either
      the section's own fault or, as `Success(name)`, the first field `read`
      rejects. */
  function ReadSection<T>(body: map<string, Json>, key: string, names: seq<string>, default: Json,
                          read: Json -> Option<T>): (r: Result<seq<T>, Result<string, Fault>>)
    requires read(default).Some?
    ensures r.Success? <==> SectionReadable(body, key, names, read)
    ensures r.Success? ==> |r.value| == |names|
    ensures r.Success? ==> forall i :: 0 <= i < |names| ==> read(FieldValue(body, key, names[i], default)) == Some(r.value[i])
    ensures r.Failure? && r.error.Failure? ==> r.error.error == SectionNotAnObject(key)
    ensures r.Failure? && r.error.Success? ==>
      r.error.value in names && read(FieldValue(body, key, r.error.value, default)).None?
  {
    match Section(body, key)
    case Failure(f) => Failure(Failure(f))
    case Success(fields) =>
      assert fields == SectionFields(body, key);
      match ReadFields(fields, names, default, read)
      case Failure(k) => Failure(Success(names[k]))
      case Success(values) => Success(values)
  }

  /** Step 1 of `predict()`: the eight aptitudes, defaulting to 10, through `float()`. */
  function ReadAptitudes(body: map<string, Json>): (r: Result<seq<real>, Fault>)
    ensures r.Success? <==> SectionReadable(body, "aptitudes", AptitudeFields, Float)
    ensures r.Success? ==> |r.value| == |AptitudeFields|
    ensures r.Success? ==> forall i :: 0 <= i < |AptitudeFields| ==>
      Float(FieldValue(body, "aptitudes", AptitudeFields[i], DefaultAptitude)) == Some(r.value[i])
    ensures r.Failure? ==> r.error == SectionNotAnObject("aptitudes") || r.error.NotAFloat?
    ensures r.Failure? && r.error.NotAFloat? ==>
      && r.error.field in AptitudeFields
      && Float(FieldValue(body, "aptitudes", r.error.field, DefaultAptitude)).None?
  {
    match ReadSection(body, "aptitudes", AptitudeFields, DefaultAptitude, Float)
    case Failure(Failure(f)) => Failure(f)
    case Failure(Success(name)) => Failure(NotAFloat(name))
    case Success(values) => Success(values)
  }

  /** Step 2 of `predict()`: the eight rating codes, defaulting to AVG. */
  function ReadRatings(body: map<string, Json>): (r: Result<seq<int>, Fault>)
    ensures r.Success? <==> RatingsHashable(body)
    ensures r.Success? ==> |r.value| == |PerformanceFields|
    ensures r.Success? ==> forall i :: 0 <= i < |PerformanceFields| ==>
      RatingCode(FieldValue(body, "performance", PerformanceFields[i], DefaultRating)) == Some(r.value[i])
    ensures r.Success? ==> forall i :: 0 <= i < |r.value| ==> 0 <= r.value[i] <= 2
    ensures r.Failure? ==> r.error == SectionNotAnObject("performance") || r.error.UnhashableRating?
    ensures r.Failure? && r.error.UnhashableRating? ==>
      && r.error.field in PerformanceFields
      && !Hashable(FieldValue(body, "performance", r.error.field, DefaultRating))
  {
    match ReadSection(body, "performance", PerformanceFields, DefaultRating, RatingCode)
    case Failure(Failure(f)) => Failure(f)
    case Failure(Success(name)) => Failure(UnhashableRating(name))
    case Success(codes) =>
      assert forall i :: 0 <= i < |codes| ==> 0 <= codes[i] <= 2 by {
        forall i | 0 <= i < |codes| ensures 0 <= codes[i] <= 2 {
          assert RatingCode(FieldValue(body, "performance", PerformanceFields[i], DefaultRating)) == Some(codes[i]);
        }
      }
      Success(codes)
  }

  /** `int(data.get("cluster", 0))`. */
  function ReadCluster(body: map<string, Json>): (r: Result<int, Fault>)
    ensures r.Success? <==> ("cluster" in body ==> Int(body["cluster"]).Some?)
    ensures "cluster" !in body ==> r == Success(0)
    ensures "cluster" in body && r.Success? ==> Int(body["cluster"]) == Some(r.value)
    ensures r.Failure? ==> r.error == NotAnInt("cluster")
  {
    TruncOfIntegral(0);
    match Int(GetOr(body, "cluster", DefaultCluster))
    case None => Failure(NotAnInt("cluster"))
    case Some(cluster) => Success(cluster)
  }

  /** Steps 1 and 2 of `predict()` plus the cluster read, in source order. */
  function ReadQuestionnaire(data: Json): (r: Result<Questionnaire, Fault>)
    ensures r.Success? ==> r.value.Valid()
    ensures r == Failure(BodyNotAnObject) <==> !data.JObj?
    ensures r.Failure? && r.error.SectionNotAnObject? ==> r.error.key in {"aptitudes", "performance"}
    ensures r.Failure? && (r.error.NotAFloat? || r.error == SectionNotAnObject("aptitudes")) ==>
      data.JObj? && ReadAptitudes(data.fields) == Failure(r.error)
    ensures r.Failure? && (r.error.UnhashableRating? || r.error == SectionNotAnObject("performance")) ==>
      data.JObj? && ReadAptitudes(data.fields).Success? && ReadRatings(data.fields) == Failure(r.error)
    ensures r.Failure? && r.error.NotAnInt? ==>
      data.JObj? && ReadAptitudes(data.fields).Success? && ReadRatings(data.fields).Success?
      && "cluster" in data.fields && Int(data.fields["cluster"]).None?
  {
    if !data.JObj? then Failure(BodyNotAnObject)
    else
      match ReadAptitudes(data.fields)
      case Failure(f) => Failure(f)
      case Success(aptitudes) =>
        match ReadRatings(data.fields)
        case Failure(f) => Failure(f)
        case Success(codes) =>
          match ReadCluster(data.fields)
          case Failure(f) => Failure(f)
          case Success(cluster) => Success(Questionnaire(aptitudes, codes, cluster))
  }

  /** The request bodies `predict()` reads without raising are exactly the
      readable ones. */
  lemma ReadSucceedsIffReadable(data: Json)
    ensures ReadQuestionnaire(data).Success? <==> Readable(data)
  {
  }

  /** A missing aptitude reads as 10; a present one is what `float()` makes of it. */
  lemma AptitudeValue(data: Json, i: nat)
    requires ReadQuestionnaire(data).Success? && i < |AptitudeFields|
    ensures data.JObj?
    ensures ReadQuestionnaire(data).value.aptitudes == ReadAptitudes(data.fields).value
    ensures AptitudeFields[i] !in SectionFields(data.fields, "aptitudes") ==>
      ReadQuestionnaire(data).value.aptitudes[i] == 10.0
    ensures AptitudeFields[i] in SectionFields(data.fields, "aptitudes") ==>
      Float(SectionFields(data.fields, "aptitudes")[AptitudeFields[i]]) == Some(ReadQuestionnaire(data).value.aptitudes[i])
  {
  }

  /** A missing rating reads as code 1; a present one is looked up in
      `{"POOR": 0, "AVG": 1, "BEST": 2}`, anything else giving 1. */
  lemma RatingValue(data: Json, i: nat)
    requires ReadQuestionnaire(data).Success? && i < |PerformanceFields|
    ensures data.JObj?
    ensures ReadQuestionnaire(data).value.codes == ReadRatings(data.fields).value
    ensures PerformanceFields[i] !in SectionFields(data.fields, "performance") ==>
      ReadQuestionnaire(data).value.codes[i] == 1
    ensures PerformanceFields[i] in SectionFields(data.fields, "performance") ==>
      RatingCode(SectionFields(data.fields, "performance")[PerformanceFields[i]]) == Some(ReadQuestionnaire(data).value.codes[i])
  {
    var codes := ReadRatings(data.fields).value;
    assert ReadQuestionnaire(data).value.codes == codes;
    assert RatingCode(FieldValue(data.fields, "performance", PerformanceFields[i], DefaultRating)) == Some(codes[i]);
  }

  /** The cluster is 0 when absent, is what `int()` makes of it when present,
      and so passes through when it is a whole number. */
  lemma ClusterValue(data: Json, k: int)
    requires data.JObj? && ReadQuestionnaire(data).Success?
    ensures "cluster" !in data.fields ==> ReadQuestionnaire(data).value.cluster == 0
    ensures "cluster" in data.fields && data.fields["cluster"] == JNum(k as real) ==>
      ReadQuestionnaire(data).value.cluster == k
    ensures "cluster" in data.fields ==> Int(data.fields["cluster"]) == Some(ReadQuestionnaire(data).value.cluster)
  {
    var body := data.fields;
    var cluster := ReadCluster(body);
    assert cluster.Success? && ReadQuestionnaire(data).value.cluster == cluster.value by {
      assert ReadAptitudes(body).Success? && ReadRatings(body).Success?;
    }
    if "cluster" in body && body["cluster"] == JNum(k as real) {
      TruncOfIntegral(k);
    }
  }

  /** The performance score is the mean of eight codes, so comparing it with
      1.12 is comparing their sum with 9. */
  lemma HighPerformerIffCodeSum(codes: seq<int>)
    requires |codes| == |PerformanceFields|
    ensures Stats.Mean(Stats.AsReals(codes)) == Stats.IntSum(codes) as real / 8.0
    ensures Stats.Mean(Stats.AsReals(codes)) >= HighPerformerThreshold <==> Stats.IntSum(codes) >= 9
  {
    Stats.SumAsReals(codes);
  }

  /** Steps 3 and 4 of `predict()`: the derived values and the final vector.
      `sqrt` is the square root `np.std` applies to the variance. */
  function FeatureVector(q: Questionnaire, sqrt: real -> real): (v: seq<real>)
    requires q.Valid()
    ensures |v| == FeatureCount
    ensures v[..8] == q.aptitudes
    ensures forall i :: 0 <= i < 8 ==> v[8 + i] == q.codes[i] as real
    ensures v[16] == Stats.Sum(q.aptitudes)
    ensures v[17] == sqrt(Stats.PopulationVariance(q.aptitudes))
    ensures v[18] == Stats.Mean([q.aptitudes[3], q.aptitudes[4]])
    ensures v[19] == Stats.Mean([q.aptitudes[0], q.aptitudes[1], q.aptitudes[2], q.aptitudes[5]])
    ensures v[20] == q.aptitudes[2]
    ensures v[21] == Stats.Mean([q.aptitudes[5], q.aptitudes[6]])
    ensures v[22] == Stats.IntSum(q.codes) as real / 8.0
    ensures v[23] == if Stats.IntSum(q.codes) >= 9 then 1.0 else 0.0
    ensures v[24] == q.cluster as real
  {
    var a := q.aptitudes;
    var codes := Stats.AsReals(q.codes);
    var total := Stats.Sum(a);
    var diversity := sqrt(Stats.PopulationVariance(a));
    var intelligence := (a[3] + a[4]) / 2.0;
    var creativity := (a[0] + a[1] + a[2] + a[5]) / 4.0;
    var physical := a[2];
    var social := (a[5] + a[6]) / 2.0;
    var score := Stats.Mean(codes);
    var high := if score >= HighPerformerThreshold then 1.0 else 0.0;
    HighPerformerIffCodeSum(q.codes);
    Stats.SumOfPair(a[3], a[4]);
    Stats.SumOfPair(a[5], a[6]);
    Stats.SumOfFour(a[0], a[1], a[2], a[5]);
    a + codes + [total, diversity, intelligence, creativity, physical, social, score, high, q.cluster as real]
  }

  /** Reading the body and building its vector. */
  function BuildFeatures(data: Json, sqrt: real -> real): (r: Result<seq<real>, Fault>)
    ensures r.Success? <==> ReadQuestionnaire(data).Success?
    ensures r.Success? ==> |r.value| == FeatureCount
    ensures r.Success? ==> r.value == FeatureVector(ReadQuestionnaire(data).value, sqrt)
    ensures r.Failure? ==> ReadQuestionnaire(data) == Failure(r.error)
  {
    match ReadQuestionnaire(data)
    case Failure(f) => Failure(f)
    case Success(q) => Success(FeatureVector(q, sqrt))
  }

  /** With no aptitude field sent, every aptitude reads as 10. */
  lemma NoAptitudesReadDefaults(body: map<string, Json>)
    requires "aptitudes" in body ==> body["aptitudes"].JObj?
    requires forall i :: 0 <= i < |AptitudeFields| ==> AptitudeFields[i] !in SectionFields(body, "aptitudes")
    ensures ReadAptitudes(body) == Success(seq(8, _ => 10.0))
  {
    assert SectionReadable(body, "aptitudes", AptitudeFields, Float);
    var v := ReadAptitudes(body).value;
    forall i | 0 <= i < 8 ensures v[i] == 10.0 {
      assert FieldValue(body, "aptitudes", AptitudeFields[i], DefaultAptitude) == DefaultAptitude;
    }
    assert v == seq(8, _ => 10.0);
  }

  /** With no rating sent, every rating reads as code 1 (AVG). */
  lemma NoRatingsReadDefaults(body: map<string, Json>)
    requires "performance" in body ==> body["performance"].JObj?
    requires forall i :: 0 <= i < |PerformanceFields| ==> PerformanceFields[i] !in SectionFields(body, "performance")
    ensures ReadRatings(body) == Success(seq(8, _ => 1))
  {
    assert RatingsHashable(body);
    var v := ReadRatings(body).value;
    assert RatingCode(DefaultRating) == Some(1);
    forall i | 0 <= i < 8 ensures v[i] == 1 {
      assert FieldValue(body, "performance", PerformanceFields[i], DefaultRating) == DefaultRating;
      assert RatingCode(FieldValue(body, "performance", PerformanceFields[i], DefaultRating)) == Some(v[i]);
    }
    assert v == seq(8, _ => 1);
  }

  /** A body with no cluster and no fields in either section reads as all defaults. */
  lemma SectionlessBodyReadsDefaults(fields: map<string, Json>)
    requires "aptitudes" in fields ==> fields["aptitudes"] == JObj(map[])
    requires "performance" in fields ==> fields["performance"] == JObj(map[])
    requires "cluster" !in fields
    ensures ReadQuestionnaire(JObj(fields)) == Success(Defaults)
  {
    assert ReadAptitudes(fields) == Success(Defaults.aptitudes) by {
      assert SectionFields(fields, "aptitudes") == map[];
      NoAptitudesReadDefaults(fields);
    }
    assert ReadRatings(fields) == Success(Defaults.codes) by {
      assert SectionFields(fields, "performance") == map[];
      NoRatingsReadDefaults(fields);
    }
  }

  /** The empty body `{}` and the body `{"aptitudes": {}, "performance": {}}`
      both read as all defaults. */
  lemma EmptyBodyReadsDefaults(data: Json)
    requires data == JObj(map[]) || data == JObj(map["aptitudes" := JObj(map[]), "performance" := JObj(map[])])
    ensures ReadQuestionnaire(data) == Success(Defaults)
  {
    SectionlessBodyReadsDefaults(data.fields);
  }

  /** All ratings AVG (as when none are sent): score 1.0, not a high performer. */
  lemma AverageRatingsAreNotHigh(q: Questionnaire, sqrt: real -> real)
    requires q.Valid() && forall i :: 0 <= i < |q.codes| ==> q.codes[i] == 1
    ensures FeatureVector(q, sqrt)[22] == 1.0 && FeatureVector(q, sqrt)[23] == 0.0
  {
    Stats.IntSumOfConstant(q.codes, 1);
  }

  /** All ratings BEST: score 2.0, a high performer. */
  lemma BestRatingsAreHigh(q: Questionnaire, sqrt: real -> real)
    requires q.Valid() && forall i :: 0 <= i < |q.codes| ==> q.codes[i] == 2
    ensures FeatureVector(q, sqrt)[22] == 2.0 && FeatureVector(q, sqrt)[23] == 1.0
  {
    Stats.IntSumOfConstant(q.codes, 2);
  }

  /** Every performance field sent as "BEST" reads as code 2. */
  lemma AllBestReadsTwos(data: Json)
    requires data.JObj? && "performance" in data.fields
    requires data.fields["performance"] == JObj(map name | name in PerformanceFields :: JStr("BEST"))
    requires ReadQuestionnaire(data).Success?
    ensures forall i :: 0 <= i < 8 ==> ReadQuestionnaire(data).value.codes[i] == 2
  {
    forall i | 0 <= i < 8 ensures ReadQuestionnaire(data).value.codes[i] == 2 {
      RatingValue(data, i);
      assert PerformanceFields[i] in PerformanceFields;
    }
  }

  /** Equal aptitudes give zero diversity. */
  lemma EqualAptitudesHaveNoDiversity(q: Questionnaire, sqrt: real -> real)
    requires q.Valid() && Stats.Constant(q.aptitudes)
    requires sqrt(0.0) == 0.0
    ensures FeatureVector(q, sqrt)[17] == 0.0
  {
    Stats.ConstantHasZeroVariance(q.aptitudes);
  }

  /** When every aptitude lies in [lo, hi], so do the four indices, and the
      total lies in [8 lo, 8 hi]; the performance score lies in [0, 2]. */
  lemma DerivedValuesInRange(q: Questionnaire, sqrt: real -> real, lo: real, hi: real)
    requires q.Valid() && Stats.AllWithin(q.aptitudes, lo, hi)
    ensures var v := FeatureVector(q, sqrt);
      && 8.0 * lo <= v[16] <= 8.0 * hi
      && lo <= v[18] <= hi && lo <= v[19] <= hi && lo <= v[20] <= hi && lo <= v[21] <= hi
      && 0.0 <= v[22] <= 2.0
  {
    var a := q.aptitudes;
    var v := FeatureVector(q, sqrt);
    assert 8.0 * lo <= v[16] <= 8.0 * hi by { Stats.SumWithin(a, lo, hi); }
    assert lo <= v[18] <= hi by { Stats.MeanWithin([a[3], a[4]], lo, hi); }
    assert lo <= v[19] <= hi by { Stats.MeanWithin([a[0], a[1], a[2], a[5]], lo, hi); }
    assert lo <= v[21] <= hi by { Stats.MeanWithin([a[5], a[6]], lo, hi); }
    assert 0.0 <= v[22] <= 2.0 by {
      Stats.MeanWithin(Stats.AsReals(q.codes), 0.0, 2.0);
      HighPerformerIffCodeSum(q.codes);
    }
  }

  /** The all-defaults questionnaire becomes aptitudes 10, codes 1, total 80,
      every index 10, score 1, no high-performer flag and cluster 0. */
  lemma DefaultsVector(sqrt: real -> real)
    ensures var v := FeatureVector(Defaults, sqrt);
      && (forall i :: 0 <= i < 8 ==> v[i] == 10.0)
      && (forall i :: 8 <= i < 16 ==> v[i] == 1.0)
      && v[16] == 80.0
      && v[18] == 10.0 && v[19] == 10.0 && v[20] == 10.0 && v[21] == 10.0
      && v[22] == 1.0 && v[23] == 0.0 && v[24] == 0.0
  {
    var q := Defaults;
    var v := FeatureVector(q, sqrt);
    forall i | 0 <= i < 8 ensures v[i] == 10.0 {
      assert v[i] == v[..8][i];
    }
    forall i | 8 <= i < 16 ensures v[i] == 1.0 {
      assert v[8 + (i - 8)] == q.codes[i - 8] as real;
    }
    assert v[16] == 80.0 by { Stats.SumOfConstant(q.aptitudes, 10.0); }
    assert v[22] == 1.0 && v[23] == 0.0 by { AverageRatingsAreNotHigh(q, sqrt); }
    assert v[18] == 10.0 && v[19] == 10.0 && v[20] == 10.0 && v[21] == 10.0 by {
      DerivedValuesInRange(q, sqrt, 10.0, 10.0);
    }
  }
}

=== FILE: numeric_text.dfy ===
/** The text-to-number conversions Python performs when `int(...)` or
    `float(...)` is applied to a string: surrounding whitespace is ignored,
    an optional sign is accepted, then decimal digits (and, for `float`, at
    most one decimal point). */
module NumericText {
  import opened Results

  /** The ASCII whitespace characters `int()` and `float()` skip around a number;
      the non-ASCII whitespace they also skip is not recognised. */
  predicate IsSpace(c: char) {
    c == ' ' || c == '\t' || c == '\n' || c == '\r' || c == '\U{0B}' || c == '\U{0C}'
  }

  predicate IsDigit(c: char) {
    '0' <= c <= '9'
  }

  predicate AllDigits(s: string) {
    forall k :: 0 <= k < |s| ==> IsDigit(s[k])
  }

  function DigitValue(c: char): (d: nat)
    requires IsDigit(c)
    ensures d < 10
  {
    (c as int - '0' as int)
  }

  function DigitChar(d: nat): (c: char)
    requires d < 10
    ensures IsDigit(c) && DigitValue(c) == d
  {
    ('0' as int + d) as char
  }

  /** The value of a string of decimal digits, most significant first. */
  function DigitsValue(s: string): nat
    requires AllDigits(s)
  {
    if |s| == 0 then 0 else DigitsValue(s[..|s| - 1]) * 10 + DigitValue(s[|s| - 1])
  }

  function Pow10(n: nat): (p: nat)
    ensures p >= 1
  {
    if n == 0 then 1 else 10 * Pow10(n - 1)
  }

  /** Drops leading whitespace. */
  function TrimStart(s: string): (t: string)
    ensures |t| <= |s| && t == s[|s| - |t|..]
    ensures forall k :: 0 <= k < |s| - |t| ==> IsSpace(s[k])
    ensures t == [] || !IsSpace(t[0])
  {
    if |s| > 0 && IsSpace(s[0]) then TrimStart(s[1..]) else s
  }

  /** Drops trailing whitespace. */
  function TrimEnd(s: string): (t: string)
    ensures |t| <= |s| && t == s[..|t|]
    ensures forall k :: |t| <= k < |s| ==> IsSpace(s[k])
    ensures t == [] || !IsSpace(t[|t| - 1])
  {
    if |s| > 0 && IsSpace(s[|s| - 1]) then TrimEnd(s[..|s| - 1]) else s
  }

  /** Drops the ASCII whitespace `int()` and `float()` skip at both ends. */
  function Strip(s: string): string {
    TrimEnd(TrimStart(s))
  }

  /** Splits off one leading sign character. */
  function SplitSign(t: string): (r: (bool, string))
    ensures r.0 ==> |t| > 0 && t[0] == '-'
    ensures |t| > 0 && (t[0] == '-' || t[0] == '+') ==> r.1 == t[1..]
    ensures !(|t| > 0 && (t[0] == '-' || t[0] == '+')) ==> r == (false, t)
  {
    if |t| > 0 && t[0] == '-' then (true, t[1..])
    else if |t| > 0 && t[0] == '+' then (false, t[1..])
    else (false, t)
  }

  function Signed(negative: bool, x: real): real {
    if negative then -x else x
  }

  /** Grammar of the integer texts accepted: optional sign, then one or more digits. */
  ghost predicate IsIntegerText(t: string) {
    || (|t| > 0 && AllDigits(t))
    || (|t| > 1 && (t[0] == '-' || t[0] == '+') && AllDigits(t[1..]))
  }

  /** Grammar of an unsigned decimal: digits with at most one decimal point,
      and at least one digit somewhere. */
  ghost predicate IsUnsignedDecimal(u: string) {
    || (|u| > 0 && AllDigits(u))
    || (|u| > 1 && exists p :: 0 <= p < |u| && u[p] == '.' && AllDigits(u[..p]) && AllDigits(u[p + 1..]))
  }

  ghost predicate IsDecimalText(t: string) {
    || IsUnsignedDecimal(t)
    || (|t| > 0 && (t[0] == '-' || t[0] == '+') && IsUnsignedDecimal(t[1..]))
  }

  /** Position of the first `c` in `s`. */
  function IndexOf(s: string, c: char): (r: Option<nat>)
    ensures r.None? <==> c !in s
    ensures r.Some? ==> r.value < |s| && s[r.value] == c && c !in s[..r.value]
  {
    if |s| == 0 then None
    else if s[0] == c then Some(0)
    else match IndexOf(s[1..], c)
      case None => None
      case Some(k) => assert s[1..][..k] == s[1..k + 1]; Some(k + 1)
  }

  /** `int(s)` for a string `s`; `None` where Python raises `ValueError`. */
  function ParseInt(s: string): (r: Option<int>)
    ensures r.Some? <==> IsIntegerText(Strip(s))
  {
    var (negative, digits) := SplitSign(Strip(s));
    if |digits| > 0 && AllDigits(digits) then
      Some(if negative then -(DigitsValue(digits) as int) else DigitsValue(digits))
    else None
  }

  function ParseUnsignedDecimal(u: string): (r: Option<real>)
    ensures r.Some? <==> IsUnsignedDecimal(u)
    ensures r.Some? ==> r.value >= 0.0
  {
    match IndexOf(u, '.')
    case None =>
      if |u| > 0 && AllDigits(u) then Some(DigitsValue(u) as real) else None
    case Some(p) =>
      var whole, fraction := u[..p], u[p + 1..];
      if |u| > 1 && AllDigits(whole) && AllDigits(fraction) then
        AllDigitsConcat(whole, fraction);
        Some(DigitsValue(whole + fraction) as real / Pow10(|fraction|) as real)
      else
        assert !(|u| > 0 && AllDigits(u)) by { assert !IsDigit(u[p]); }
        assert forall q :: 0 <= q < |u| && u[q] == '.' && AllDigits(u[..q]) ==> q == p by {
          forall q | 0 <= q < |u| && u[q] == '.' && AllDigits(u[..q]) ensures q == p {
            DotPosition(u, p, q);
          }
        }
        None
  }

  /** The first decimal point is the only one that can be followed by digits alone
      and the only one that can be preceded by digits alone. */
  lemma DotPosition(u: string, p: nat, q: nat)
    requires p < |u| && u[p] == '.' && '.' !in u[..p]
    requires q < |u| && u[q] == '.' && AllDigits(u[..q])
    ensures q == p
  {
  }

  /** `float(s)` for a string `s`, restricted to plain decimal notation;
      `None` where Python raises `ValueError`. */
  function ParseFloat(s: string): (r: Option<real>)
    ensures r.Some? <==> IsDecimalText(Strip(s))
  {
    var t := Strip(s);
    if |t| > 0 && (t[0] == '-' || t[0] == '+') then
      assert !IsUnsignedDecimal(t) by { assert !IsDigit(t[0]) && t[0] != '.'; }
      match ParseUnsignedDecimal(t[1..])
      case None => None
      case Some(x) => Some(Signed(t[0] == '-', x))
    else
      ParseUnsignedDecimal(t)
  }

  /** Decimal rendering of a natural number, as Python's `str(n)`. */
  function NatText(n: nat): (s: string)
    decreases n
  {
    if n < 10 then [DigitChar(n)] else NatText(n / 10) + [DigitChar(n % 10)]
  }

  /** Decimal rendering of an integer, as Python's `str(i)`. */
  function IntText(i: int): string {
    if i < 0 then "-" + NatText(-i) else NatText(i)
  }

  lemma {:induction false} NatTextDigits(n: nat)
    ensures |NatText(n)| > 0 && AllDigits(NatText(n))
    ensures DigitsValue(NatText(n)) == n
    decreases n
  {
    if n >= 10 {
      NatTextDigits(n / 10);
      var s := NatText(n);
      assert s[..|s| - 1] == NatText(n / 10);
    }
  }

  lemma NoSpaceNoStrip(s: string)
    requires forall k :: 0 <= k < |s| ==> !IsSpace(s[k])
    ensures Strip(s) == s
  {
    if |s| > 0 {
      assert !IsSpace(s[0]);
      assert TrimStart(s) == s;
      assert !IsSpace(s[|s| - 1]);
    }
  }

  lemma IntTextStrip(i: int)
    ensures Strip(IntText(i)) == IntText(i)
  {
    var n: nat := if i < 0 then -i else i;
    NatTextDigits(n);
    var s := IntText(i);
    forall k | 0 <= k < |s| ensures !IsSpace(s[k]) {
      if i < 0 && k > 0 { assert s[k] == NatText(n)[k - 1]; }
    }
    NoSpaceNoStrip(s);
  }

  /** `int(str(i)) == i`: rendering an integer and parsing it back is the identity. */
  lemma ParseIntRoundTrip(i: int)
    ensures ParseInt(IntText(i)) == Some(i)
  {
    IntTextStrip(i);
    if i < 0 {
      NatTextDigits(-i);
      assert IntText(i)[1..] == NatText(-i);
    } else {
      NatTextDigits(i);
    }
  }

  lemma UnsignedDecimalOfDigits(d: string)
    requires |d| > 0 && AllDigits(d)
    ensures ParseUnsignedDecimal(d) == Some(DigitsValue(d) as real)
  {
    assert '.' !in d;
  }

  /** `float(str(i)) == i` for every integer `i`. */
  lemma ParseFloatOfIntText(i: int)
    ensures ParseFloat(IntText(i)) == Some(i as real)
  {
    IntTextStrip(i);
    var n: nat := if i < 0 then -i else i;
    NatTextDigits(n);
    UnsignedDecimalOfDigits(NatText(n));
    if i < 0 {
      assert IntText(i)[1..] == NatText(n);
    } else {
      assert IntText(i) == NatText(n);
      assert IsDigit(NatText(n)[0]);
    }
  }

  lemma AllDigitsConcat(a: string, b: string)
    requires AllDigits(a) && AllDigits(b)
    ensures AllDigits(a + b)
  {
    forall k | 0 <= k < |a + b| ensures IsDigit((a + b)[k]) {
      if k < |a| { assert (a + b)[k] == a[k]; } else { assert (a + b)[k] == b[k - |a|]; }
    }
  }

  /** Digits with one point at position `p`. */
  ghost predicate PointText(u: string, p: nat) {
    p < |u| && |u| > 1 && u[p] == '.' && AllDigits(u[..p]) && AllDigits(u[p + 1..])
  }

  /** Digits around a point: the digits read as one integer, scaled down by
      ten for every digit after the point. */
  lemma UnsignedDecimalAt(u: string, p: nat)
    requires PointText(u, p)
    ensures AllDigits(u[..p] + u[p + 1..])
    ensures ParseUnsignedDecimal(u) == Some(DigitsValue(u[..p] + u[p + 1..]) as real / Pow10(|u| - p - 1) as real)
  {
    var whole, fraction := u[..p], u[p + 1..];
    AllDigitsConcat(whole, fraction);
    assert |fraction| == |u| - p - 1;
    assert IndexOf(u, '.') == Some(p) by { FirstPoint(u, p); }
  }

  /** The point at `p` is the first one. */
  lemma FirstPoint(u: string, p: nat)
    requires PointText(u, p)
    ensures IndexOf(u, '.') == Some(p)
  {
    assert u[p] == '.';
  }

  /** Digits and one point hold no whitespace. */
  lemma PointTextHasNoSpace(u: string, p: nat)
    requires PointText(u, p)
    ensures forall k :: 0 <= k < |u| ==> !IsSpace(u[k])
  {
    forall k | 0 <= k < |u| ensures !IsSpace(u[k]) {
      if k < p {
        assert u[k] == u[..p][k];
      } else if k > p {
        assert u[k] == u[p + 1..][k - p - 1];
      }
    }
  }

  lemma ParseFloatUnsigned(t: string)
    requires forall k :: 0 <= k < |t| ==> !IsSpace(t[k])
    requires |t| > 0 && t[0] != '-' && t[0] != '+'
    ensures ParseFloat(t) == ParseUnsignedDecimal(t)
  {
    NoSpaceNoStrip(t);
  }

  lemma ParseFloatNegative(t: string)
    requires forall k :: 0 <= k < |t| ==> !IsSpace(t[k])
    requires |t| > 0 && t[0] == '-' && ParseUnsignedDecimal(t[1..]).Some?
    ensures ParseFloat(t) == Some(-ParseUnsignedDecimal(t[1..]).value)
  {
    NoSpaceNoStrip(t);
  }

  /** `float()` of digits with a point at `p`: the digits read as one
      integer, scaled down by ten for every digit after the point, so
      `"2.5"` is 25 / 10 and `"3."` is 3. */
  lemma ParseFloatOfPointText(u: string, p: nat)
    requires PointText(u, p)
    ensures AllDigits(u[..p] + u[p + 1..])
    ensures ParseFloat(u) == Some(DigitsValue(u[..p] + u[p + 1..]) as real / Pow10(|u| - p - 1) as real)
  {
    UnsignedDecimalAt(u, p);
    PointTextHasNoSpace(u, p);
    if p > 0 { assert IsDigit(u[..p][0]); }
    ParseFloatUnsigned(u);
  }

  /** The same text behind a minus sign reads as the negated value, so
      `"-.5"` is -(5 / 10). */
  lemma ParseFloatOfNegativePointText(t: string, p: nat)
    requires |t| > 0 && t[0] == '-' && PointText(t[1..], p)
    ensures AllDigits(t[1..][..p] + t[1..][p + 1..])
    ensures ParseFloat(t) == Some(-(DigitsValue(t[1..][..p] + t[1..][p + 1..]) as real / Pow10(|t| - p - 2) as real))
  {
    var u := t[1..];
    UnsignedDecimalAt(u, p);
    PointTextHasNoSpace(u, p);
    assert forall k :: 0 <= k < |t| ==> !IsSpace(t[k]) by {
      forall k | 0 <= k < |t| ensures !IsSpace(t[k]) {
        if k > 0 { assert t[k] == u[k - 1]; }
      }
    }
    ParseFloatNegative(t);
  }
}

=== FILE: ranking.dfy ===
/** The top-five ranking of a class-probability vector: the class indices
    `np.argsort(probs)[-5:][::-1]` selects, and the `(rank, career,
    confidence)` records built from them. */
module Ranking {
  import opened Results
  import opened Rounding

  /** How many classes are reported at most. */
  const TopCount: nat := 5

  function Min(a: nat, b: nat): nat {
    if a <= b then a else b
  }

  predicate Distinct(xs: seq<nat>) {
    forall i, j :: 0 <= i < j < |xs| ==> xs[i] != xs[j]
  }

  /** `idx` lists `k` distinct classes of `probs` in non-increasing order of
      probability, and no class left out is more probable than one listed.
      Among equally probable classes any order and any choice is allowed:
      the default `np.argsort` kind is not stable. */
  ghost predicate IsTopK(probs: seq<real>, idx: seq<nat>, k: nat) {
    && |idx| == k
    && (forall i :: 0 <= i < |idx| ==> idx[i] < |probs|)
    && Distinct(idx)
    && (forall i, j :: 0 <= i < j < |idx| ==> probs[idx[i]] >= probs[idx[j]])
    && (forall i, u: nat :: 0 <= i < |idx| && u < |probs| && u !in idx ==> probs[idx[i]] >= probs[u])
  }

  /** Pigeonhole: a list whose members include `|a|` distinct values is at
      least that long. */
  lemma {:induction false} CoveredIsShorter(a: seq<nat>, b: seq<nat>)
    requires Distinct(a)
    requires forall x :: x in a ==> x in b
    ensures |a| <= |b|
  {
    if |a| > 0 {
      var last := a[|a| - 1];
      assert last in a;
      var p :| 0 <= p < |b| && b[p] == last;
      var rest := b[..p] + b[p + 1..];
      var init := a[..|a| - 1];
      forall x | x in init ensures x in rest {
        var i :| 0 <= i < |init| && init[i] == x;
        assert x == a[i] && x != last;
        assert x in a;
        var q :| 0 <= q < |b| && b[q] == x;
        if q < p { assert rest[q] == x; } else { assert rest[q - 1] == x; }
      }
      CoveredIsShorter(init, rest);
    }
  }

  /** Some member of a longer distinct list is missing from a shorter one. */
  lemma Escapee(a: seq<nat>, b: seq<nat>)
    requires Distinct(a) && |a| > |b|
    ensures exists i :: 0 <= i < |a| && a[i] !in b
  {
    if forall x :: x in a ==> x in b {
      CoveredIsShorter(a, b);
    }
  }

  /** The highest-probability class below `n` that is not in `excluded`. */
  function BestIn(probs: seq<real>, excluded: seq<nat>, n: nat): (r: Option<nat>)
    requires n <= |probs|
    ensures r.None? <==> forall j: nat :: j < n ==> j in excluded
    ensures r.Some? ==> r.value < n && r.value !in excluded
    ensures r.Some? ==> forall j: nat :: j < n && j !in excluded ==> probs[j] <= probs[r.value]
  {
    if n == 0 then None
    else
      var best := BestIn(probs, excluded, n - 1);
      if n - 1 in excluded then best
      else if best.None? || probs[n - 1] > probs[best.value] then Some(n - 1)
      else best
  }

  /** The indices `0 .. n-1` in order. */
  function Range(n: nat): (r: seq<nat>)
    ensures |r| == n && forall i :: 0 <= i < n ==> r[i] == i
  {
    seq(n, i requires 0 <= i < n => i)
  }

  /** Selects the `k` most probable classes, most probable first. */
  function TopK(probs: seq<real>, k: nat): (idx: seq<nat>)
    requires k <= |probs|
    ensures IsTopK(probs, idx, k)
  {
    if k == 0 then []
    else
      var prev := TopK(probs, k - 1);
      Escapee(Range(|probs|), prev);
      var best := BestIn(probs, prev, |probs|);
      prev + [best.value]
  }

  /** The classes `predict()` reports: the `min(5, C)` most probable ones. */
  function TopIndices(probs: seq<real>): (idx: seq<nat>)
    ensures IsTopK(probs, idx, Min(TopCount, |probs|))
  {
    TopK(probs, Min(TopCount, |probs|))
  }

  /** Any two valid selections agree on the probability at every rank, so
      the reported confidences do not depend on how ties are broken. */
  lemma TopKProbabilitiesAgree(probs: seq<real>, a: seq<nat>, b: seq<nat>, k: nat)
    requires IsTopK(probs, a, k) && IsTopK(probs, b, k)
    ensures forall j :: 0 <= j < k ==> probs[a[j]] == probs[b[j]]
  {
    forall j | 0 <= j < k ensures probs[a[j]] == probs[b[j]] {
      NotAbove(probs, a, b, k, j);
      NotAbove(probs, b, a, k, j);
    }
  }

  lemma NotAbove(probs: seq<real>, a: seq<nat>, b: seq<nat>, k: nat, j: nat)
    requires IsTopK(probs, a, k) && IsTopK(probs, b, k) && j < k
    ensures probs[a[j]] <= probs[b[j]]
  {
    var head := a[..j + 1];
    Escapee(head, b[..j]);
    var i :| 0 <= i < |head| && head[i] !in b[..j];
    var x := a[i];
    assert x !in b[..j];
    if x in b {
      var t :| 0 <= t < |b| && b[t] == x;
      assert t >= j;
    }
  }

  /** Every class has a probability of its own. */
  predicate NoTies(probs: seq<real>) {
    forall i, j :: 0 <= i < |probs| && 0 <= j < |probs| && i != j ==> probs[i] != probs[j]
  }

  /** Without ties there is only one valid selection, so every correct
      sort, stable or not, picks the same classes in the same order. */
  lemma TopKUniqueWithoutTies(probs: seq<real>, a: seq<nat>, b: seq<nat>, k: nat)
    requires NoTies(probs) && IsTopK(probs, a, k) && IsTopK(probs, b, k)
    ensures a == b
  {
    TopKProbabilitiesAgree(probs, a, b, k);
    forall j | 0 <= j < k ensures a[j] == b[j] {
      assert probs[a[j]] == probs[b[j]];
    }
  }

  /** One line of the response: `{"rank", "career", "confidence"}`. */
  datatype Prediction = Prediction(rank: nat, career: string, confidence: real)

  /** The records for `idx[start..]`, or the first class index that has no
      label (`classes_[idx]` raising `IndexError`). */
  function Describe(probs: seq<real>, classes: seq<string>, idx: seq<nat>, start: nat): (r: Result<seq<Prediction>, nat>)
    requires start <= |idx|
    requires forall i :: 0 <= i < |idx| ==> idx[i] < |probs|
    ensures r.Success? <==> forall i :: start <= i < |idx| ==> idx[i] < |classes|
    ensures r.Success? ==> |r.value| == |idx| - start
    ensures r.Success? ==> forall i :: start <= i < |idx| ==>
      r.value[i - start] == Prediction(i + 1, classes[idx[i]], Confidence(probs[idx[i]]))
    ensures r.Failure? ==> exists i :: start <= i < |idx| && idx[i] == r.error && r.error >= |classes|
    decreases |idx| - start
  {
    if start == |idx| then Success([])
    else if idx[start] >= |classes| then Failure(idx[start])
    else match Describe(probs, classes, idx, start + 1)
      case Failure(e) => Failure(e)
      case Success(rest) =>
        Success([Prediction(start + 1, classes[idx[start]], Confidence(probs[idx[start]]))] + rest)
  }

  /** `preds` is a correct top-five answer for `probs` and label list `classes`. */
  ghost predicate Ranked(probs: seq<real>, classes: seq<string>, preds: seq<Prediction>) {
    exists idx :: IsTopK(probs, idx, Min(TopCount, |probs|)) && Labels(probs, classes, idx, preds)
  }

  ghost predicate Labels(probs: seq<real>, classes: seq<string>, idx: seq<nat>, preds: seq<Prediction>) {
    && |preds| == |idx|
    && forall i :: 0 <= i < |idx| ==>
         idx[i] < |probs| && idx[i] < |classes| &&
         preds[i] == Prediction(i + 1, classes[idx[i]], Confidence(probs[idx[i]]))
  }

  /** The loop over the top indices in `predict()`. */
  function Rank(probs: seq<real>, classes: seq<string>): (r: Result<seq<Prediction>, nat>)
    ensures r.Success? <==> forall i :: 0 <= i < |TopIndices(probs)| ==> TopIndices(probs)[i] < |classes|
    ensures |classes| >= |probs| ==> r.Success?
    ensures r.Success? ==> Ranked(probs, classes, r.value)
    ensures r.Failure? ==> |classes| <= r.error < |probs|
  {
    var idx := TopIndices(probs);
    var r := Describe(probs, classes, idx, 0);
    assert r.Success? ==> Labels(probs, classes, idx, r.value);
    r
  }

  /** Ranks run 1, 2, ... and confidences never increase down the list. */
  lemma RankedIsOrdered(probs: seq<real>, classes: seq<string>, preds: seq<Prediction>)
    requires Ranked(probs, classes, preds)
    ensures |preds| == Min(TopCount, |probs|)
    ensures forall i :: 0 <= i < |preds| ==> preds[i].rank == i + 1
    ensures forall i, j :: 0 <= i < j < |preds| ==> preds[i].confidence >= preds[j].confidence
  {
    var idx :| IsTopK(probs, idx, Min(TopCount, |probs|)) && Labels(probs, classes, idx, preds);
    forall i, j | 0 <= i < j < |preds| ensures preds[i].confidence >= preds[j].confidence {
      ConfidenceMonotone(probs[idx[j]], probs[idx[i]]);
    }
  }

  /** Every reported confidence is a percentage when the classifier returns
      probabilities. */
  lemma RankedConfidenceIsPercent(probs: seq<real>, classes: seq<string>, preds: seq<Prediction>)
    requires Ranked(probs, classes, preds)
    requires forall c :: 0 <= c < |probs| ==> 0.0 <= probs[c] <= 1.0
    ensures forall i :: 0 <= i < |preds| ==> 0.0 <= preds[i].confidence <= 100.0
  {
    var idx :| IsTopK(probs, idx, Min(TopCount, |probs|)) && Labels(probs, classes, idx, preds);
    forall i | 0 <= i < |preds| ensures 0.0 <= preds[i].confidence <= 100.0 {
      ConfidenceWithinPercent(probs[idx[i]]);
    }
  }

  /** Two correct answers differ at most in which of several equally probable
      careers they name: ranks and confidences coincide. */
  lemma RankedConfidencesAreDetermined(probs: seq<real>, classes: seq<string>, x: seq<Prediction>, y: seq<Prediction>)
    requires Ranked(probs, classes, x) && Ranked(probs, classes, y)
    ensures |x| == |y|
    ensures forall i :: 0 <= i < |x| ==> x[i].rank == y[i].rank && x[i].confidence == y[i].confidence
  {
    var k := Min(TopCount, |probs|);
    var a :| IsTopK(probs, a, k) && Labels(probs, classes, a, x);
    var b :| IsTopK(probs, b, k) && Labels(probs, classes, b, y);
    TopKProbabilitiesAgree(probs, a, b, k);
  }

  /** Whether ranking succeeds is the same for every correct selection when
      the probabilities have no ties, or when the encoder labels every
      class: then the verdict does not hang on how ties are ordered. */
  lemma RankVerdictIsTieFree(probs: seq<real>, classes: seq<string>, idx: seq<nat>)
    requires IsTopK(probs, idx, Min(TopCount, |probs|))
    requires NoTies(probs) || |classes| >= |probs|
    ensures Rank(probs, classes).Success? <==> forall i :: 0 <= i < |idx| ==> idx[i] < |classes|
  {
    if NoTies(probs) {
      TopKUniqueWithoutTies(probs, idx, TopIndices(probs), Min(TopCount, |probs|));
    }
  }
}

=== FILE: results.dfy ===
/** Failure-carrying values shared by the whole model. */
module Results {

  /** A value that may be absent, as Python's `None`. */
  datatype Option<+T> = None | Some(value: T)

  /** Either a computed value or the reason the computation was abandoned
      (the model's stand-in for a raised Python exception). */
  datatype Result<+T, +E> = Success(value: T) | Failure(error: E)
}

=== FILE: rounding.dfy ===
/** Python's `round(x, 2)` over exact reals: round to the nearest multiple
    of 0.01, an exact tie going to the even neighbour. */
module Rounding {

  /** The integer nearest to `x`; on an exact tie, the even one. */
  function RoundHalfEven(x: real): (n: int)
    ensures n as real - 0.5 <= x <= n as real + 0.5
    ensures (x == n as real - 0.5 || x == n as real + 0.5) ==> n % 2 == 0
  {
    var f := x.Floor;
    var frac := x - f as real;
    if frac < 0.5 then f
    else if frac > 0.5 then f + 1
    else if f % 2 == 0 then f
    else f + 1
  }

  /** Rounding never reverses the order of two values. */
  lemma RoundHalfEvenMonotone(x: real, y: real)
    requires x <= y
    ensures RoundHalfEven(x) <= RoundHalfEven(y)
  {
    var fx, fy := x.Floor, y.Floor;
    if fx == fy {
      var nx, ny := RoundHalfEven(x), RoundHalfEven(y);
      assert fx <= nx <= fx + 1;
      assert fy <= ny <= fy + 1;
      if nx == fx + 1 {
        assert x - fx as real >= 0.5;
        assert y - fy as real >= x - fx as real;
      }
    }
  }

  lemma RoundHalfEvenOfInt(k: int)
    ensures RoundHalfEven(k as real) == k
  {
  }

  /** `round(x, 2)`. */
  function Round2(x: real): (r: real)
    ensures x - 0.005 <= r <= x + 0.005
    ensures (r * 100.0).Floor as real == r * 100.0
  {
    RoundHalfEven(x * 100.0) as real / 100.0
  }

  /** The confidence shown for a probability: `round(p * 100, 2)`. */
  function Confidence(p: real): (c: real)
    ensures p * 100.0 - 0.005 <= c <= p * 100.0 + 0.005
    ensures (c * 100.0).Floor as real == c * 100.0
  {
    Round2(p * 100.0)
  }

  /** A higher probability never shows a lower confidence. */
  lemma ConfidenceMonotone(p: real, q: real)
    requires p <= q
    ensures Confidence(p) <= Confidence(q)
  {
    RoundHalfEvenMonotone(p * 100.0 * 100.0, q * 100.0 * 100.0);
  }

  /** A probability in [0, 1] shows as a confidence in [0, 100]. */
  lemma ConfidenceWithinPercent(p: real)
    requires 0.0 <= p <= 1.0
    ensures 0.0 <= Confidence(p) <= 100.0
  {
    ConfidenceMonotone(0.0, p);
    ConfidenceMonotone(p, 1.0);
    RoundHalfEvenOfInt(0);
    RoundHalfEvenOfInt(10000);
    assert Confidence(0.0) == 0.0;
    assert Confidence(1.0) == 100.0;
  }
}

=== FILE: service.dfy ===
/** The backend's request handlers over what startup loaded: the load
    itself as a pure function of what each artifact read produced, the
    `health()` and `careers()` projections, and the outcome of `predict()`. */
module Service {
  import opened Results
  import opened Values
  import Features
  import Ranking

  /** The trained classifier's `predict_proba` on one feature vector: the
      per-class probabilities, or the message of the exception it raised. */
  type Classifier = seq<real> -> Result<seq<real>, string>

  /** What the module-level startup code leaves behind. When any artifact
      failed to load the model is unavailable; the label encoder survives
      that only when it was itself loaded before the failure. */
  datatype Context =
    | Unavailable(encoder: Option<seq<string>>)
    | Ready(classify: Classifier, classes: seq<string>, featureOrder: seq<string>)

  /** The startup `try` block: load the model, then the label encoder, then
      the feature order, stopping at the first that fails. Each argument is
      `None` when reading that artifact raised. */
  function Load(model: Option<Classifier>, encoder: Option<seq<string>>, featureOrder: Option<seq<string>>)
    : (ctx: Context)
    ensures ctx.Ready? <==> model.Some? && encoder.Some? && featureOrder.Some?
    ensures ctx.Ready? ==>
      ctx.classify == model.value && ctx.classes == encoder.value && ctx.featureOrder == featureOrder.value
    ensures ctx.Unavailable? ==> (ctx.encoder.Some? <==> model.Some? && encoder.Some?)
    ensures ctx.Unavailable? && ctx.encoder.Some? ==> ctx.encoder.value == encoder.value
  {
    match (model, encoder, featureOrder)
    case (Some(m), Some(e), Some(o)) => Ready(m, e, o)
    case (Some(_), Some(e), None) => Unavailable(Some(e))
    case _ => Unavailable(None)
  }

  /** The body of a `/health` answer (always status 200). */
  datatype HealthReport = HealthReport(modelLoaded: bool, featuresExpected: nat)

  function Health(ctx: Context): (h: HealthReport)
    ensures h.modelLoaded <==> ctx.Ready?
    ensures ctx.Ready? ==> h.featuresExpected == |ctx.featureOrder|
    ensures ctx.Unavailable? ==> h.featuresExpected == 0
  {
    match ctx
    case Ready(_, _, order) => HealthReport(true, |order|)
    case Unavailable(_) => HealthReport(false, 0)
  }

  /** The body of a `/careers` answer. */
  datatype CareerList = CareerList(total: nat, careers: seq<string>)

  /** `None` when no label encoder was ever bound, where the handler raises
      and the framework answers 500. */
  function Careers(ctx: Context): (r: Option<CareerList>)
    ensures r.Some? <==> ctx.Ready? || ctx.encoder.Some?
    ensures r.Some? ==> r.value.total == |r.value.careers|
    ensures ctx.Ready? ==> r.Some? && r.value.careers == ctx.classes
    ensures ctx.Unavailable? && ctx.encoder.Some? ==> r.Some? && r.value.careers == ctx.encoder.value
  {
    var labels := if ctx.Ready? then Some(ctx.classes) else ctx.encoder;
    match labels
    case None => None
    case Some(classes) => Some(CareerList(|classes|, classes))
  }

  /** Why `predict()` fell into its catch-all handler. */
  datatype Reason =
    | NoJsonBody                        // the request carried no JSON document
    | BadBody(fault: Features.Fault)    // reading the questionnaire raised
    | ClassifierRaised(message: string) // `predict_proba` raised
    | NoLabelFor(index: nat)            // a ranked class index the encoder has no label for

  /** Everything `predict()` can answer. */
  datatype Outcome =
    | Predicted(predictions: seq<Ranking.Prediction>)
    | ModelNotLoaded
    | FeatureCountMismatch(expected: nat, received: nat)
    | Failed(reason: Reason)

  /** The HTTP status of each outcome. */
  function Status(o: Outcome): (code: int)
    ensures code == 200 <==> o.Predicted?
    ensures code == 400 <==> o.FeatureCountMismatch?
    ensures code == 500 <==> o.ModelNotLoaded? || o.Failed?
  {
    match o
    case Predicted(_) => 200
    case FeatureCountMismatch(_, _) => 400
    case ModelNotLoaded => 500
    case Failed(_) => 500
  }

  /** The last stage of `predict()`: run the classifier on the vector and
      label its five most probable classes. */
  function Classify(classify: Classifier, classes: seq<string>, vector: seq<real>): (o: Outcome)
    ensures o.Predicted? || (o.Failed? && (o.reason.ClassifierRaised? || o.reason.NoLabelFor?))
    ensures o.Predicted? <==> classify(vector).Success? && Ranking.Rank(classify(vector).value, classes).Success?
    ensures o.Predicted? ==> Ranking.Ranked(classify(vector).value, classes, o.predictions)
    ensures o.Failed? && o.reason.ClassifierRaised? ==> classify(vector) == Failure(o.reason.message)
    ensures o.Failed? && o.reason.NoLabelFor? ==> o.reason.index >= |classes|
  {
    match classify(vector)
    case Failure(message) => Failed(ClassifierRaised(message))
    case Success(probs) =>
      match Ranking.Rank(probs, classes)
      case Failure(index) => Failed(NoLabelFor(index))
      case Success(predictions) => Predicted(predictions)
  }

  /** `predict()`: the model check first, then the questionnaire and its
      feature vector, then the length check against the feature order, then
      the classifier and the top-5 ranking. `body` is `None` when the request
      carried no JSON document; `sqrt` is the square root `np.std` uses. */
  function Predict(ctx: Context, body: Option<Json>, sqrt: real -> real): (o: Outcome)
    ensures o.ModelNotLoaded? <==> ctx.Unavailable?
    ensures o.FeatureCountMismatch? ==>
      && ctx.Ready?
      && o.expected == |ctx.featureOrder|
      && o.received == Features.FeatureCount
      && o.expected != o.received
    ensures o.Predicted? ==> ctx.Ready? && |ctx.featureOrder| == Features.FeatureCount
    ensures o.Failed? && o.reason.BadBody? ==>
      body.Some? && Features.ReadQuestionnaire(body.value) == Failure(o.reason.fault)
    ensures o.Failed? && o.reason.NoLabelFor? ==> ctx.Ready? && o.reason.index >= |ctx.classes|
  {
    if ctx.Unavailable? then ModelNotLoaded
    else if body.None? then Failed(NoJsonBody)
    else
      match Features.BuildFeatures(body.value, sqrt)
      case Failure(f) => Failed(BadBody(f))
      case Success(vector) =>
        if |vector| != |ctx.featureOrder| then FeatureCountMismatch(|ctx.featureOrder|, |vector|)
        else Classify(ctx.classify, ctx.classes, vector)
  }

  /** The vector `predict()` hands the classifier for a readable body. */
  ghost function VectorOf(body: Json, sqrt: real -> real): seq<real>
    requires Features.ReadQuestionnaire(body).Success?
  {
    Features.FeatureVector(Features.ReadQuestionnaire(body).value, sqrt)
  }

  /** What the startup load reports through `/health`: loaded exactly when
      all three artifacts loaded, expecting as many features as the order
      lists, and none otherwise. */
  lemma HealthAfterLoad(model: Option<Classifier>, encoder: Option<seq<string>>, featureOrder: Option<seq<string>>)
    ensures var h := Health(Load(model, encoder, featureOrder));
      && (h.modelLoaded <==> model.Some? && encoder.Some? && featureOrder.Some?)
      && h.featuresExpected == (if h.modelLoaded then |featureOrder.value| else 0)
  {
  }

  /** `/careers` answers after startup exactly when both the model and the
      encoder loaded, whatever became of the feature order. */
  lemma CareersAfterLoad(model: Option<Classifier>, encoder: Option<seq<string>>, featureOrder: Option<seq<string>>)
    ensures var r := Careers(Load(model, encoder, featureOrder));
      && (r.Some? <==> model.Some? && encoder.Some?)
      && (r.Some? ==> r.value.careers == encoder.value && r.value.total == |encoder.value|)
  {
  }

  /** A length mismatch is reported exactly when the model is loaded, the
      body is readable, and the feature order does not list 25 names: a body
      that cannot be read is a 500 even when the lengths disagree. */
  lemma MismatchIff(ctx: Context, body: Option<Json>, sqrt: real -> real)
    ensures Predict(ctx, body, sqrt).FeatureCountMismatch? <==>
      && ctx.Ready?
      && body.Some?
      && Features.Readable(body.value)
      && |ctx.featureOrder| != Features.FeatureCount
  {
    if body.Some? {
      Features.ReadSucceedsIffReadable(body.value);
    }
  }

  /** A successful prediction is exactly the case where every stage passes:
      the model is loaded, the body is readable, the feature order lists 25
      names, the classifier answers on the built vector, and the encoder has
      a label for each of the top indices. The predictions are then a
      ranking of the classifier's probabilities. */
  lemma PredictedIff(ctx: Context, body: Option<Json>, sqrt: real -> real)
    ensures Predict(ctx, body, sqrt).Predicted? <==>
      && ctx.Ready?
      && body.Some?
      && Features.Readable(body.value)
      && |ctx.featureOrder| == Features.FeatureCount
      && ctx.classify(VectorOf(body.value, sqrt)).Success?
      && var probs := ctx.classify(VectorOf(body.value, sqrt)).value;
         forall i :: 0 <= i < |Ranking.TopIndices(probs)| ==> Ranking.TopIndices(probs)[i] < |ctx.classes|
    ensures Predict(ctx, body, sqrt).Predicted? ==>
      Ranking.Ranked(ctx.classify(VectorOf(body.value, sqrt)).value, ctx.classes, Predict(ctx, body, sqrt).predictions)
  {
    if body.Some? {
      Features.ReadSucceedsIffReadable(body.value);
    }
  }

  /** The answer to a successful prediction: at most five entries ranked
      1, 2, ... with non-increasing confidences, and no more entries than the
      classifier has classes. */
  lemma PredictedIsOrdered(ctx: Context, body: Option<Json>, sqrt: real -> real)
    requires Predict(ctx, body, sqrt).Predicted?
    ensures var preds := Predict(ctx, body, sqrt).predictions;
      && |preds| <= Ranking.TopCount
      && |preds| <= |ctx.classify(VectorOf(body.value, sqrt)).value|
      && (forall i :: 0 <= i < |preds| ==> preds[i].rank == i + 1)
      && (forall i, j :: 0 <= i < j < |preds| ==> preds[i].confidence >= preds[j].confidence)
  {
    var probs := ctx.classify(VectorOf(body.value, sqrt)).value;
    var preds := Predict(ctx, body, sqrt).predictions;
    assert Ranking.Ranked(probs, ctx.classes, preds) by { PredictedIff(ctx, body, sqrt); }
    Ranking.RankedIsOrdered(probs, ctx.classes, preds);
  }

  /** Sending `{}` feeds the classifier the all-defaults vector. */
  lemma EmptyBodyVector(sqrt: real -> real)
    ensures Features.ReadQuestionnaire(JObj(map[])).Success?
    ensures VectorOf(JObj(map[]), sqrt) == Features.FeatureVector(Features.Defaults, sqrt)
  {
    Features.EmptyBodyReadsDefaults(JObj(map[]));
  }
}

=== FILE: stats.dfy ===
/** The numpy reductions the feature builder uses, over exact reals:
    `sum`, `mean` and the population variance underlying `std`. */
module Stats {

  function Sum(xs: seq<real>): real {
    if |xs| == 0 then 0.0 else xs[0] + Sum(xs[1..])
  }

  function IntSum(xs: seq<int>): int {
    if |xs| == 0 then 0 else xs[0] + IntSum(xs[1..])
  }

  /** Element-wise conversion of integer codes to numbers, as `np.array` does
      when it mixes them with floats. */
  function AsReals(xs: seq<int>): (r: seq<real>)
    ensures |r| == |xs| && forall i :: 0 <= i < |xs| ==> r[i] == xs[i] as real
  {
    seq(|xs|, i requires 0 <= i < |xs| => xs[i] as real)
  }

  function Mean(xs: seq<real>): real
    requires |xs| > 0
  {
    Sum(xs) / |xs| as real
  }

  function SquaredDeviations(xs: seq<real>, m: real): (r: seq<real>)
    ensures |r| == |xs|
    ensures forall i :: 0 <= i < |xs| ==> r[i] == (xs[i] - m) * (xs[i] - m)
  {
    seq(|xs|, i requires 0 <= i < |xs| => (xs[i] - m) * (xs[i] - m))
  }

  /** Population variance: the mean squared deviation from the mean
      (`np.std` divides by N, not N - 1, before taking the square root). */
  function PopulationVariance(xs: seq<real>): real
    requires |xs| > 0
  {
    Sum(SquaredDeviations(xs, Mean(xs))) / |xs| as real
  }

  predicate Constant(xs: seq<real>) {
    forall i :: 0 <= i < |xs| ==> xs[i] == xs[0]
  }

  predicate AllWithin(xs: seq<real>, lo: real, hi: real) {
    forall i :: 0 <= i < |xs| ==> lo <= xs[i] <= hi
  }

  lemma {:induction false} SumOfConstant(xs: seq<real>, c: real)
    requires forall i :: 0 <= i < |xs| ==> xs[i] == c
    ensures Sum(xs) == |xs| as real * c
  {
    if |xs| > 0 {
      SumOfConstant(xs[1..], c);
    }
  }

  lemma {:induction false} IntSumOfConstant(xs: seq<int>, c: int)
    requires forall i :: 0 <= i < |xs| ==> xs[i] == c
    ensures IntSum(xs) == |xs| * c
  {
    if |xs| > 0 {
      IntSumOfConstant(xs[1..], c);
    }
  }

  lemma SumOfPair(x: real, y: real)
    ensures Sum([x, y]) == x + y
  {
    assert [x, y][1..] == [y];
    assert [y][1..] == [];
    assert Sum([y]) == y;
  }

  lemma SumOfFour(w: real, x: real, y: real, z: real)
    ensures Sum([w, x, y, z]) == w + x + y + z
  {
    assert [w, x, y, z][1..] == [x, y, z];
    assert [x, y, z][1..] == [y, z];
    SumOfPair(y, z);
  }

  lemma {:induction false} SumWithin(xs: seq<real>, lo: real, hi: real)
    requires AllWithin(xs, lo, hi)
    ensures |xs| as real * lo <= Sum(xs) <= |xs| as real * hi
  {
    if |xs| > 0 {
      SumWithin(xs[1..], lo, hi);
    }
  }

  /** A mean lies between the smallest and the largest bound of its inputs. */
  lemma MeanWithin(xs: seq<real>, lo: real, hi: real)
    requires |xs| > 0 && AllWithin(xs, lo, hi)
    ensures lo <= Mean(xs) <= hi
  {
    SumWithin(xs, lo, hi);
    var n := |xs| as real;
    assert n * lo <= Sum(xs) <= n * hi;
    assert Mean(xs) == Sum(xs) / n;
    assert Sum(xs) / n <= hi by { assert Sum(xs) / n * n == Sum(xs); }
    assert lo <= Sum(xs) / n by { assert Sum(xs) / n * n == Sum(xs); }
  }

  lemma {:induction false} SumOfNonNegative(xs: seq<real>)
    requires forall i :: 0 <= i < |xs| ==> xs[i] >= 0.0
    ensures Sum(xs) >= 0.0
    ensures Sum(xs) == 0.0 ==> forall i :: 0 <= i < |xs| ==> xs[i] == 0.0
  {
    if |xs| > 0 {
      SumOfNonNegative(xs[1..]);
      if Sum(xs) == 0.0 {
        forall i | 0 <= i < |xs| ensures xs[i] == 0.0 {
          if i > 0 { assert xs[i] == xs[1..][i - 1]; }
        }
      }
    }
  }

  /** Summing codes as numbers agrees with summing them as integers. */
  lemma {:induction false} SumAsReals(xs: seq<int>)
    ensures Sum(AsReals(xs)) == IntSum(xs) as real
  {
    if |xs| > 0 {
      SumAsReals(xs[1..]);
      assert AsReals(xs)[1..] == AsReals(xs[1..]);
    }
  }

  lemma SquaresNonNegative(xs: seq<real>, m: real)
    ensures forall i :: 0 <= i < |xs| ==> SquaredDeviations(xs, m)[i] >= 0.0
  {
    forall i | 0 <= i < |xs| ensures (xs[i] - m) * (xs[i] - m) >= 0.0 {
      if xs[i] - m < 0.0 {
        assert (xs[i] - m) * (xs[i] - m) == (m - xs[i]) * (m - xs[i]);
      }
    }
  }

  lemma VarianceNonNegative(xs: seq<real>)
    requires |xs| > 0
    ensures PopulationVariance(xs) >= 0.0
  {
    SquaresNonNegative(xs, Mean(xs));
    SumOfNonNegative(SquaredDeviations(xs, Mean(xs)));
  }

  /** All-equal values have zero population variance, so the diversity
      feature (its square root) is the square root of zero. */
  lemma ConstantHasZeroVariance(xs: seq<real>)
    requires |xs| > 0 && Constant(xs)
    ensures PopulationVariance(xs) == 0.0
  {
    var m := Mean(xs);
    SumOfConstant(xs, xs[0]);
    assert m == xs[0];
    SumOfConstant(SquaredDeviations(xs, m), 0.0);
  }
}

=== FILE: values.dfy ===
/** Decoded JSON request data and the Python built-ins the service applies
    to it: `dict.get` with a default, `float(...)`, `int(...)` and the
    lookup of a rating label in a dictionary keyed by strings. */
module Values {
  import opened Results
  import NumericText

  /** A JSON value as Python's `json` module decodes it. Integer and
      floating-point numbers are both carried as `JNum`. */
  datatype Json =
    | JNull
    | JBool(b: bool)
    | JNum(n: real)
    | JStr(s: string)
    | JArr(items: seq<Json>)
    | JObj(fields: map<string, Json>)

  /** `d.get(key, default)`. */
  function GetOr(d: map<string, Json>, key: string, default: Json): (v: Json)
    ensures key in d ==> v == d[key]
    ensures key !in d ==> v == default
  {
    if key in d then d[key] else default
  }

  /** Python's `int(x)` on a float: truncation toward zero. */
  function Trunc(x: real): (r: int)
    ensures x >= 0.0 ==> 0 <= r && r as real <= x < r as real + 1.0
    ensures x < 0.0 ==> r <= 0 && r as real - 1.0 < x <= r as real
  {
    if x >= 0.0 then x.Floor else -((-x).Floor)
  }

  /** An integral value survives truncation unchanged, so `int(k) == k` for
      every integer the JSON decoder produces. */
  lemma TruncOfIntegral(k: int)
    ensures Trunc(k as real) == k
  {
  }

  /** `float(v)`; `None` where Python raises `TypeError` or `ValueError`. */
  function Float(v: Json): (r: Option<real>)
    ensures v.JNull? || v.JArr? || v.JObj? ==> r.None?
    ensures v.JNum? ==> r == Some(v.n)
    ensures v.JBool? ==> r.Some? && (r.value == 1.0 <==> v.b) && (r.value == 0.0 <==> !v.b)
    ensures v.JStr? ==> (r.Some? <==> NumericText.IsDecimalText(NumericText.Strip(v.s)))
  {
    match v
    case JNum(x) => Some(x)
    case JBool(b) => Some(if b then 1.0 else 0.0)
    case JStr(s) => NumericText.ParseFloat(s)
    case _ => None
  }

  /** `int(v)`; `None` where Python raises `TypeError` or `ValueError`. */
  function Int(v: Json): (r: Option<int>)
    ensures v.JNull? || v.JArr? || v.JObj? ==> r.None?
    ensures v.JNum? ==> r == Some(Trunc(v.n))
    ensures v.JBool? ==> r.Some? && (r.value == 1 <==> v.b) && (r.value == 0 <==> !v.b)
    ensures v.JStr? ==> (r.Some? <==> NumericText.IsIntegerText(NumericText.Strip(v.s)))
  {
    match v
    case JNum(x) => Some(Trunc(x))
    case JBool(b) => Some(if b then 1 else 0)
    case JStr(s) => NumericText.ParseInt(s)
    case _ => None
  }

  /** Only lists and dictionaries are unhashable among decoded JSON values. */
  predicate Hashable(v: Json) {
    !(v.JArr? || v.JObj?)
  }
}
